=== FILE: README.md ===
# Featured posts: the API route and the page's request coordinator

A model of the two halves of a small Next.js application for a list of "featured" blog
posts.

- **The API route** (`Posts`, in `posts.dfy`) keeps an in-memory array of posts, seeded
  with five of them.
  - `GET` returns one post by `id`, or the featured posts narrowed by a case-insensitive
    text search over the title, the excerpt and the tags.
  - `POST` validates a creation body, fills in defaults, gives the new post the next id and
    appends it.
  - The array is the field of the class `FeaturedPosts`. Its handlers are methods proved
    against the pure functions `HandleGet` and `Create`, and those functions carry the
    properties.
- **The page** (`Client`, in `client.dfy`) is modelled as the class `Coordinator`. It
  stands for the component's state (`posts`, `error`, `loading`, the `isInitialLoad` ref,
  the `abortControllerRef`, `searchTerm` and the debounce timer) and the events that change
  it:
  - `fetchFeaturedPosts` being issued;
  - its reply settling;
  - the abort signal reaching a superseded request;
  - time passing for the 400 ms search debounce;
  - the retry, reload, dismiss and create-post actions.

  Every `AbortController` is a token, the index of its request in `requests`. The
  invariant `Valid` says four things:
  - At most one request is in flight without being aborted, and it is the live one.
  - No error is shown while a request is live.
  - `isInitialLoad` holds until the first request finishes. Every handler states its new
    value, so once it is false it stays false.
  - A pending timer carries the current search term.
- **Tag parsing** of the creation form (`ParseTags`) splits on commas, trims and drops
  empty pieces.
- **Helper modules.** The JavaScript string built-ins used by both files (`trim`,
  `toLowerCase`, `includes`, `split`) are in `Text` (`text.dfy`). A generic order-preserving
  `Filter` is in `Seqs` (`seqs.dfy`), and `Option` is in `Wrappers` (`wrappers.dfy`).

The model follows the code in these details:
- A missing post answers the Italian message "Post non trovato".
- The validation error is a fixed text naming both `title` and `slug`, whichever is missing.
- The page clears its error when a request is issued; a successful reply does not touch it.
- The retry buttons re-issue the current search term.
- The refetch after a creation uses the search term of the render that submitted the form
  (see Findings).
- A superseded request can still show an error (see Findings).

## Model

| member | source | states |
|---|---|---|
| Posts.NextId | src/app/api/featured-posts/route.js:59-63 | 1 for an empty store; otherwise one more than some stored id and greater than every id; at least 1 when ids are positive |
| Posts.MaxId | src/app/api/featured-posts/route.js:61 | the maximum is the id of some post and no id exceeds it |
| Posts.Find | src/app/api/featured-posts/route.js:73 | None exactly when no post has the id; otherwise the first post with that id |
| Posts.GetById | src/app/api/featured-posts/route.js:72-87 | 404 "Post non trovato" exactly when no post has the id; a success is 200 with a stored post of that id |
| Posts.FilterFeatured | src/app/api/featured-posts/route.js:90 | keeps exactly the featured posts, each as many times as in the store, as an order-preserving subsequence |
| Posts.AnyTagIncludes | src/app/api/featured-posts/route.js:98-100 | true exactly when some lower-cased tag contains the query |
| Posts.Matches | src/app/api/featured-posts/route.js:95-102 | for a non-empty query, the guards on an empty title or excerpt make no difference: a post matches exactly when its title, excerpt or some tag contains the query |
| Posts.FilterMatching | src/app/api/featured-posts/route.js:94-102 | keeps exactly the posts matching on title, excerpt or a tag, with their multiplicities, as a subsequence |
| Posts.Search | src/app/api/featured-posts/route.js:93-103 | the identity for the empty query; otherwise exactly the posts matching the lower-cased query, with their multiplicities and in order |
| Posts.NormalizeQuery | src/app/api/featured-posts/route.js:69 | an absent query is ""; a present one is empty exactly when it is all whitespace |
| Posts.ListFeatured | src/app/api/featured-posts/route.js:89-109 | 200 with a list of featured posts, a subsequence of the store, whose count is its length |
| Posts.HandleGet | src/app/api/featured-posts/route.js:66-110 | success exactly with status 200; every failure is the 404 "Post non trovato"; a list exactly when no id is given; a single post exactly when the id is an integer that some stored post carries, and then a stored post with that id, so a non-integer id is always the 404 |
| Posts.LookupFindsEveryPost | src/app/api/featured-posts/route.js:72-86 | with unique ids, asking for any stored post's id returns that post, whether featured or not |
| Posts.EmptyQueryListsFeatured | src/app/api/featured-posts/route.js:69-93 | an absent or blank query lists exactly the featured posts |
| Posts.SearchKeepsExactly | src/app/api/featured-posts/route.js:89-103 | for a non-blank query, a post is listed if and only if it is stored, featured and its title, excerpt or a tag contains the trimmed query, ignoring case |
| Posts.SearchCaseInsensitive | src/app/api/featured-posts/route.js:69-101 | two queries that lower-case alike (by LowerEqualIff, equal letter by letter up to case) give the same response |
| Posts.NewPost | src/app/api/featured-posts/route.js:116-146 | the id is getNextId, above every stored id; createdAt is the given time; title and slug are copied; excerpt and image default to ""; featured is the truthiness of the field; tags are kept only when they are an array |
| Posts.Create | src/app/api/featured-posts/route.js:113-169 | 400 "Corpo JSON non valido" for a malformed body; 400 "Campi obbligatori mancanti: title e slug" when title or slug is missing or empty; otherwise 201 with "Post creato con successo" and exactly the post NewPost builds from the body |
| Posts.CreatePreservesIds | src/app/api/featured-posts/route.js:137-149 | appending the created post keeps ids unique and positive |
| Posts.CreateDefaults | src/app/api/featured-posts/route.js:116-146 | a body with only title and slug gives the post with every default |
| Posts.Truthy | src/app/api/featured-posts/route.js:144 | false exactly for null, false, 0 and "" |
| Posts.MissingRequired | src/app/api/featured-posts/route.js:126 | a body is accepted exactly when title and slug are present and non-empty |
| Posts.AfterCreate | src/app/api/featured-posts/route.js:149 | on success the store grows by exactly the created post at the end, otherwise it is unchanged; earlier posts are kept |
| Posts.SeedPosts | src/app/api/featured-posts/route.js:5-56 | five posts with ids 1 to 5, all featured except the third and the fourth |
| Posts.SeedIds | src/app/api/featured-posts/route.js:5-63 | the seed has unique positive ids and the next id is 6 |
| Posts.ConsecutiveIds | src/app/api/featured-posts/route.js:59-63 | ids 1..n in order are unique and positive, and the next id is n + 1 |
| Posts.SeedListing | src/app/api/featured-posts/route.js:5-56 | with no query the seed lists posts 1, 2 and 5, in that order |
| Posts.SeedMissingId | src/app/api/featured-posts/route.js:72-82 | id 999 is answered with the 404 |
| Posts.FeaturedPosts.constructor | src/app/api/featured-posts/route.js:5-56 | the store starts as the seed, with unique positive ids |
| Posts.FeaturedPosts.Get | src/app/api/featured-posts/route.js:66-110 | answers HandleGet on the current store |
| Posts.FeaturedPosts.Post | src/app/api/featured-posts/route.js:113-169 | answers Create on the old store, appends the post only on success and keeps ids unique and positive |
| Text.Trim | src/app/api/featured-posts/route.js:69 | the trimmed text is empty exactly for all-whitespace input; otherwise it neither starts nor ends with whitespace |
| Text.TrimIsPadded | src/app/page.js:117 | the input is the trimmed text padded with whitespace on both sides |
| Text.Lower | src/app/api/featured-posts/route.js:94 | same length; each capital A–Z becomes the same letter in lower case; every other character is unchanged |
| Text.LowerEqualIff | src/app/api/featured-posts/route.js:94 | two texts lower-case alike exactly when they agree letter by letter up to ASCII case |
| Text.LowerTrimCommute | src/app/api/featured-posts/route.js:69-94 | lower-casing and trimming commute |
| Text.IncludesIff | src/app/api/featured-posts/route.js:96-100 | includes holds exactly when the substring occurs at some index |
| Text.Includes | src/app/api/featured-posts/route.js:96-100 | the empty text is included in every text; an included text is no longer than the text |
| Seqs.Filter | src/app/api/featured-posts/route.js:90 | at most as long as the input; every element of the result is kept and comes from the input, and every kept element of the input is in the result |
| Seqs.FilterCounts | src/app/api/featured-posts/route.js:90 | each kept element appears exactly as many times as in the input, and no other element appears |
| Text.Split | src/app/page.js:115-116 | at least one piece, none containing the separator |
| Text.JoinSplit | src/app/page.js:115-116 | joining the pieces with the separator gives back the text |
| Text.SplitJoin | src/app/page.js:115-116 | splitting a join of separator-free pieces gives back the pieces |
| Client.TrimmedPieces | src/app/page.js:115-117 | one trimmed piece per comma-separated part |
| Client.ParseTags | src/app/page.js:115-118 | every tag is non-empty, comma-free and trimmed; the tags are the non-empty trimmed pieces, each as many times as it occurs, in order |
| Client.ParseJoinedTags | src/app/page.js:115-118 | clean tags joined with commas parse back to themselves |
| Client.SubmitOutcome | src/app/page.js:110-133 | a submitted form gets 400 when its title or slug is empty, otherwise 201 with its fields, the next id and its parsed tags |
| Client.SubmitBody | src/app/page.js:125-132 | title, slug, excerpt and image are sent as typed; featured is the checkbox and tags the parsed list; the body is rejected exactly when title or slug is empty |
| Client.AsList | src/app/page.js:78 | an array is kept as it is; a single value becomes a one-element list |
| Client.AbortLive | src/app/page.js:53-55 | only the live request becomes aborted; queries and phases are kept |
| Client.Coordinator.ShowsInitialLoader | src/app/page.js:160-161 | the initial loader shows only while loading, with no posts, and before any request has finished |
| Client.Coordinator.constructor | src/app/page.js:9-31 | no posts, no error, loading, initial load, no controller, no timer, empty search term |
| Client.Coordinator.Issue | src/app/page.js:51-63 | aborts the live request, makes a new one live, sets loading and clears the error |
| Client.Coordinator.RestartDebounce | src/app/page.js:39-43 | the only pending timer fires 400 ms from now with the current term |
| Client.Coordinator.Mount | src/app/page.js:33-49 | issues the unfiltered request and arms the debounce timer |
| Client.Coordinator.ChangeSearchTerm | src/app/page.js:39-49 | a changed term re-arms the timer; an unchanged one does nothing; nothing is fetched |
| Client.Coordinator.Elapse | src/app/page.js:41-43 | a due timer fires and issues its term; otherwise nothing is fetched |
| Client.Coordinator.Finish | src/app/page.js:89-99 | loading and the initial load end; the controller slot is released only if it still holds this request |
| Client.Coordinator.Respond | src/app/page.js:65-88 | only the live request reacts: success shows its data (wrapped if single); a failure shows its message or the default and clears the list; a non-ok status starts reading the body; any other token changes nothing |
| Client.Coordinator.ErrorTextSettled | src/app/page.js:67-69 | the live request shows its HTTP error with the body text and clears the list |
| Client.Coordinator.DeliverAbort | src/app/page.js:80-99 | an aborted request only runs its finally block: posts, error and the live token are kept |
| Client.Coordinator.DeliverAbortAsWritten | src/app/page.js:67-99 | an abort during the non-ok body read shows an HTTP error and clears the list; an abort while awaiting the reply is swallowed and keeps the invariant; in every case the finally block runs (request finished, loading off) and the live token, search term and timer are kept |
| Client.Coordinator.Retry | src/app/page.js:210 | re-issues the current search term; nothing else changes |
| Client.Coordinator.DismissError | src/app/page.js:211 | clears the error |
| Client.Coordinator.CreateSettled | src/app/page.js:135-152 | a successful creation re-issues the term of the submitting render; a failed one changes nothing shown |
| Client.Coordinator.CreateSettledIntended | src/app/page.js:148-149 | a successful creation re-issues the term in the search box; a failed one changes nothing shown |
| Client.TypeBurst | src/app/page.js:39-49 | keystrokes closer together than 400 ms send one request, for the last term, which the search box then shows; loading is on, no error, the list and the initial-load flag are kept, and the clock has advanced by the burst plus 400 ms |
| Client.MountScenario | src/app/page.js:33-49 | mount sends two unfiltered requests and aborts the first; the initial loader goes away once one finishes |
| Client.DebounceScenario | src/app/page.js:39-49 | typing "a" then "ab" within the interval sends one search request, for "ab" |
| Client.OutOfOrderScenario | src/app/page.js:51-99 | after "x" is superseded by "y", a late reply for "x" leaves the result of "y" on screen |
| Client.SupersededLoadingScenario | src/app/page.js:89-90 | the finally block of a superseded request clears loading while a newer request is live |
| Client.StaleErrorScenario | src/app/page.js:67-88 | as written, a superseded request aborted during its error-body read shows its error and empties the list |
| Client.StaleErrorCorrectedScenario | src/app/page.js:80-85 | with the abort honoured, the same events keep the list and show no error |
| Client.StaleRefetchScenario | src/app/page.js:110-149 | as written, a search typed while a creation is pending is aborted by the refetch, which requests the unfiltered list |
| Client.CurrentRefetchScenario | src/app/page.js:148-149 | with the intended refetch, the same events request the term in the search box |

## Left out

- Unicode case mapping: `Lower` folds only A–Z, whereas `toLowerCase` maps every cased character.
- `Number(id)` is not modelled as a parser. The `id` parameter arrives already classified as absent or empty, an integer, or anything else.
- URL parsing, JSON serialisation and `NextResponse` are reduced to the `Response` datatype. The `createdAt` timestamp is passed in instead of read from the clock.
- Creation bodies whose title, slug, excerpt or image is not a string, or is `null`, are not modelled. Such a post would be stored, since validation only tests truthiness, and a non-string title would then make every later search throw at src/app/api/featured-posts/route.js:96. With `null`, the JavaScript default does not apply. Tags are modelled as strings, so `String(t)` on other values is not modelled.
- Concurrent handling of server requests is not modelled: each handler call is atomic.
- Client-side I/O is not modelled. `fetch`, the timers and React's scheduling are events that a caller invokes. Rendering, `alert`, `console.error` and the form bindings are left out. So are the `showForm` and `submitting` flags, the form reset and the search indicator. The clearing of the timer when the page unmounts is also left out.
- The page's error text is modelled as `ErrorMessage` (a status with an optional body text, or a message), not as the formatted string.
- Client.Coordinator.Respond: a reply for an aborted request is ignored, because an aborted `fetch` only ever rejects with the abort (`DeliverAbort`).
- Client.Coordinator.DeliverAbortAsWritten: does not promise `Valid` when the abort lands during the non-ok body read, because the code breaks that invariant there (see Findings).

## Findings

| source | as written | input that shows it | evidently intended | confidence | as-written member | corrected member |
|---|---|---|---|---|---|---|
| src/app/page.js:67-88 | `res.text().catch(() => null)` swallows the AbortError of a superseded request. The plain `Error` then thrown is not an AbortError, so the stale request sets its error and clears the list. | A list is shown. A search "a" gets a 500 reply and is superseded by "b" while its body is being read. | A superseded request never changes what is shown, as the catch block intends for aborts. | not executed | Client.Coordinator.DeliverAbortAsWritten (Client.StaleErrorScenario) | Client.Coordinator.DeliverAbort (Client.StaleErrorCorrectedScenario) |
| src/app/page.js:110-149 | `handleSubmit` is the closure of the render that submitted the form, so the refetch after a successful creation uses the search term of that render. | The search box is empty at submission. "abc" is typed while the creation is pending and its search is sent; then the creation answers 201. The refetch requests "" and aborts the "abc" search, and the list is unfiltered while the box reads "abc". | The refetch keeps the current filter, as the comment at line 148 says. | not executed | Client.Coordinator.CreateSettled (Client.StaleRefetchScenario) | Client.Coordinator.CreateSettledIntended (Client.CurrentRefetchScenario) |

=== FILE: client.dfy ===
/**
 * The featured-posts page: the request coordinator behind `fetchFeaturedPosts`, the
 * search debounce, the refetch after a post is created, and the parsing of the
 * comma-separated tags of the creation form.
 *
 * Each `AbortController` the page creates is a token: its index in `requests`.
 * `liveToken` is `abortControllerRef.current`. Network replies, the abort signal
 * reaching a pending read, and the passing of time are explicit events (methods).
 */
module Client {
  import opened Wrappers
  import opened Seqs
  import opened Text
  import opened Posts

  /** The debounce interval of the search box, in milliseconds. */
  const DebounceDelay: nat := 400
  const UnknownError := "Errore sconosciuto"
  const LoadError := "Errore nel caricamento"

  // ---------------------------------------------------------------- the creation form

  /** `tags.split(",").map(tag => tag.trim())`. */
  function TrimmedPieces(s: string): (pieces: seq<string>)
    ensures |pieces| == |Split(s, ',')|
    ensures forall i :: 0 <= i < |pieces| ==> pieces[i] == Trim(Split(s, ',')[i])
  {
    var parts := Split(s, ',');
    seq(|parts|, i requires 0 <= i < |parts| => Trim(parts[i]))
  }

  predicate NonEmpty(t: string) {
    |t| > 0
  }

  /**
   * The tag parsing of `handleSubmit`: split on commas, trim each piece, drop the empty
   * ones. Every tag is non-empty, comma-free and trimmed, and the pieces keep their order.
   */
  function ParseTags(s: string): (tags: seq<string>)
    ensures forall i :: 0 <= i < |tags| ==> tags[i] != [] && ',' !in tags[i]
    ensures forall i :: 0 <= i < |tags| ==> !IsWhitespace(tags[i][0]) && !IsWhitespace(tags[i][|tags[i]| - 1])
    ensures IsSubsequence(tags, TrimmedPieces(s))
    ensures forall i :: 0 <= i < |TrimmedPieces(s)| && TrimmedPieces(s)[i] != [] ==> TrimmedPieces(s)[i] in tags
    ensures forall t :: multiset(tags)[t] == if t == [] then 0 else multiset(TrimmedPieces(s))[t]
  {
    var pieces := TrimmedPieces(s);
    PiecesCommaFree(s);
    FilterIsSubsequence(pieces, NonEmpty);
    NonEmptyCounts(pieces);
    Filter(pieces, NonEmpty)
  }

  /** Dropping the empty pieces keeps every other piece as many times as it occurs. */
  lemma NonEmptyCounts(pieces: seq<string>)
    ensures forall t :: multiset(Filter(pieces, NonEmpty))[t] == if t == [] then 0 else multiset(pieces)[t]
  {
    var kept := Filter(pieces, NonEmpty);
    FilterCounts(pieces, NonEmpty);
    forall t
      ensures multiset(kept)[t] == if t == [] then 0 else multiset(pieces)[t]
    {
      assert NonEmpty(t) <==> t != [];
    }
  }

  /** A trimmed piece of a comma split contains no comma. */
  lemma PiecesCommaFree(s: string)
    ensures forall i :: 0 <= i < |TrimmedPieces(s)| ==> ',' !in TrimmedPieces(s)[i]
  {
    var parts, pieces := Split(s, ','), TrimmedPieces(s);
    forall i | 0 <= i < |pieces|
      ensures ',' !in pieces[i]
    {
      assert ',' !in parts[i];
      TrimIsPadded(parts[i]);
    }
  }

  /** Tags that are already clean survive a join with commas and a re-parse unchanged. */
  lemma ParseJoinedTags(tags: seq<string>)
    requires |tags| >= 1
    requires forall i :: 0 <= i < |tags| ==> tags[i] != [] && ',' !in tags[i]
    requires forall i :: 0 <= i < |tags| ==> !IsWhitespace(tags[i][0]) && !IsWhitespace(tags[i][|tags[i]| - 1])
    ensures ParseTags(Join(tags, ',')) == tags
  {
    SplitJoin(tags, ',');
    var pieces := TrimmedPieces(Join(tags, ','));
    forall i | 0 <= i < |tags|
      ensures pieces[i] == tags[i]
    {
      TrimKeepsTrimmed(tags[i]);
    }
    assert pieces == tags;
    FilterKeepsAll(pieces, NonEmpty);
  }

  /** The fields of the creation form (`formData`). */
  datatype Form = Form(title: string, slug: string, excerpt: string, image: string, featured: bool, tags: string)

  /** The JSON body `handleSubmit` posts for a form: every field present, the tags parsed. */
  function SubmitBody(form: Form): (b: Body)
    ensures MissingRequired(b) <==> form.title == "" || form.slug == ""
    ensures b.featured == Some(Bool(form.featured)) && b.tags == Some(Array(ParseTags(form.tags)))
    ensures b.title == Some(form.title) && b.slug == Some(form.slug)
    ensures b.excerpt == Some(form.excerpt) && b.image == Some(form.image)
  {
    Body(Some(form.title), Some(form.slug), Some(form.excerpt), Some(form.image),
         Some(Bool(form.featured)), Some(Array(ParseTags(form.tags))))
  }

  /**
   * What the route answers to a submitted form: 400 when the title or the slug is empty,
   * otherwise 201 with a post carrying the form's fields and its parsed tags.
   */
  lemma SubmitOutcome(posts: seq<Post>, form: Form, createdAt: string)
    ensures form.title == "" || form.slug == ""
            ==> Create(posts, Parsed(Some(SubmitBody(form))), createdAt) == Response(400, false, Failure(MissingFieldsError))
    ensures form.title != "" && form.slug != ""
            ==> Create(posts, Parsed(Some(SubmitBody(form))), createdAt)
                == Response(201, true, Created(Post(NextId(posts), form.title, form.slug, form.excerpt, form.image,
                                                    createdAt, form.featured, ParseTags(form.tags)), CreatedMessage))
  {
  }

  // ---------------------------------------------------------------- the request coordinator

  /** Where a request stands: awaiting `fetch`/`res.json()`, reading a non-ok body with `res.text()`, or done. */
  datatype Phase = Awaiting | ReadingErrorText(status: nat) | Finished

  /** One call of `fetchFeaturedPosts`: its query, its progress, and whether its controller was aborted. */
  datatype Request = Request(query: string, phase: Phase, aborted: bool)

  /** A pending `setTimeout` of the debounce effect: when it fires and the term it captured. */
  datatype Timer = Timer(deadline: nat, term: string)

  /** `result.data`: an array, or a single value that the page wraps in a one-element list. */
  datatype Data = Items(items: seq<Post>) | Item(item: Post)

  /**
   * How a live request's `fetch` settles: rejected for a reason other than abort (network
   * failure, unreadable JSON), answered with a non-ok status, or answered with a JSON object.
   */
  datatype Outcome = Rejected(message: string) | NotOk(status: nat) | JsonReply(success: bool, data: Data, error: string)

  /** The error the page shows: the `Errore HTTP` text of a non-ok status, or a message. */
  datatype ErrorMessage = HttpError(status: nat, text: Option<string>) | Message(message: string)

  /** `Array.isArray(result.data) ? result.data : [result.data]`. */
  function AsList(d: Data): (r: seq<Post>)
    ensures d.Items? ==> r == d.items
    ensures d.Item? ==> |r| == 1 && r[0] == d.item
  {
    match d
    case Items(items) => items
    case Item(item) => [item]
  }

  /** A request that has neither finished nor been aborted. */
  predicate InFlight(r: Request) {
    !r.aborted && r.phase != Finished
  }

  /** The requests after aborting the controller in `live`, if there is one. */
  function AbortLive(requests: seq<Request>, live: Option<nat>): (r: seq<Request>)
    ensures |r| == |requests|
    ensures forall t :: 0 <= t < |r| ==> r[t].query == requests[t].query && r[t].phase == requests[t].phase
    ensures forall t :: 0 <= t < |r| ==> (r[t].aborted <==> requests[t].aborted || live == Some(t))
  {
    if live.Some? && live.value < |requests| then requests[live.value := requests[live.value].(aborted := true)]
    else requests
  }

  /** The queries sent so far, one per request. */
  function Queries(requests: seq<Request>): (qs: seq<string>)
    ensures |qs| == |requests| && forall t :: 0 <= t < |qs| ==> qs[t] == requests[t].query
  {
    seq(|requests|, t requires 0 <= t < |requests| => requests[t].query)
  }

  class Coordinator {
    var posts: seq<Post>
    var error: Option<ErrorMessage>
    var loading: bool
    var isInitialLoad: bool
    var liveToken: Option<nat>
    var requests: seq<Request>
    var searchTerm: string
    var pendingTimer: Option<Timer>
    var now: nat

    /**
     * The coordinator's invariant: at most one request is in flight unaborted and it is the
     * live one; while it is live no error is shown; `isInitialLoad` holds until the first
     * request finishes; a pending timer carries the current search term and fires within
     * the debounce interval.
     */
    predicate Valid()
      reads this
    {
      (liveToken.Some? ==> liveToken.value < |requests| && InFlight(requests[liveToken.value]) && error.None?)
      && (forall t :: 0 <= t < |requests| && InFlight(requests[t]) ==> liveToken == Some(t))
      && (isInitialLoad <==> forall t :: 0 <= t < |requests| ==> requests[t].phase != Finished)
      && (pendingTimer.Some? ==> pendingTimer.value.term == searchTerm
                                 && now < pendingTimer.value.deadline <= now + DebounceDelay)
    }

    /** The full-screen "Caricamento iniziale..." loader: only while no request has finished yet. */
    predicate ShowsInitialLoader()
      requires Valid()
      reads this
      ensures ShowsInitialLoader() ==> loading && posts == []
                                       && forall t :: 0 <= t < |requests| ==> requests[t].phase != Finished
    {
      loading && |posts| == 0 && isInitialLoad
    }

    /** The state before the first render's effects run. */
    constructor()
      ensures Valid()
      ensures posts == [] && error == None && loading && isInitialLoad
      ensures liveToken == None && requests == [] && searchTerm == "" && pendingTimer == None && now == 0
    {
      posts, error, loading, isInitialLoad := [], None, true, true;
      liveToken, requests, searchTerm, pendingTimer, now := None, [], "", None, 0;
    }

    /**
     * The synchronous part of `fetchFeaturedPosts(q)`: abort the live controller, make a new
     * one live, set `loading` and clear the error.
     */
    method Issue(q: string)
      requires Valid()
      modifies this
      ensures Valid()
      ensures requests == AbortLive(old(requests), old(liveToken)) + [Request(q, Awaiting, false)]
      ensures liveToken == Some(|old(requests)|)
      ensures loading && error == None
      ensures posts == old(posts) && isInitialLoad == old(isInitialLoad)
      ensures searchTerm == old(searchTerm) && pendingTimer == old(pendingTimer) && now == old(now)
    {
      requests := AbortLive(requests, liveToken);
      requests := requests + [Request(q, Awaiting, false)];
      liveToken := Some(|requests| - 1);
      loading := true;
      error := None;
    }

    /** The body of the debounce effect: replace any pending timer by one for the current term. */
    method RestartDebounce()
      modifies this`pendingTimer
      ensures pendingTimer == Some(Timer(now + DebounceDelay, searchTerm))
    {
      pendingTimer := Some(Timer(now + DebounceDelay, searchTerm));
    }

    /** The first render: the mount effect fetches with no query, then the debounce effect schedules a timer. */
    method Mount()
      requires Valid()
      modifies this
      ensures Valid()
      ensures requests == AbortLive(old(requests), old(liveToken)) + [Request("", Awaiting, false)]
      ensures liveToken == Some(|old(requests)|)
      ensures pendingTimer == Some(Timer(now + DebounceDelay, searchTerm))
      ensures loading && error == None && posts == old(posts)
      ensures searchTerm == old(searchTerm) && now == old(now) && isInitialLoad == old(isInitialLoad)
    {
      Issue("");
      RestartDebounce();
    }

    /** Typing in the search box: on a change of `searchTerm` the debounce effect re-arms the timer; nothing is fetched. */
    method ChangeSearchTerm(term: string)
      requires Valid()
      modifies this
      ensures Valid()
      ensures searchTerm == term
      ensures pendingTimer == if term == old(searchTerm) then old(pendingTimer) else Some(Timer(now + DebounceDelay, term))
      ensures requests == old(requests) && liveToken == old(liveToken)
      ensures posts == old(posts) && error == old(error) && loading == old(loading)
      ensures isInitialLoad == old(isInitialLoad) && now == old(now)
    {
      if term != searchTerm {
        searchTerm := term;
        RestartDebounce();
      }
    }

    /** `d` milliseconds pass; a timer whose deadline is reached fires and fetches its term. */
    method Elapse(d: nat)
      requires Valid()
      modifies this
      ensures Valid()
      ensures now == old(now) + d && searchTerm == old(searchTerm)
      ensures posts == old(posts) && isInitialLoad == old(isInitialLoad)
      ensures old(pendingTimer).Some? && old(pendingTimer).value.deadline <= now ==>
                requests == AbortLive(old(requests), old(liveToken)) + [Request(old(pendingTimer).value.term, Awaiting, false)]
                && liveToken == Some(|old(requests)|) && pendingTimer == None && loading && error == None
      ensures !(old(pendingTimer).Some? && old(pendingTimer).value.deadline <= now) ==>
                requests == old(requests) && liveToken == old(liveToken) && pendingTimer == old(pendingTimer)
                && loading == old(loading) && error == old(error)
    {
      now := now + d;
      if pendingTimer.Some? && pendingTimer.value.deadline <= now {
        var term := pendingTimer.value.term;
        pendingTimer := None;
        Issue(term);
      }
    }

    /** The `finally` block: stop loading, end the initial load, release the controller slot if it is still ours. */
    method Finish(token: nat)
      requires token < |requests|
      modifies this
      ensures requests == old(requests)[token := old(requests)[token].(phase := Finished)]
      ensures liveToken == if old(liveToken) == Some(token) then None else old(liveToken)
      ensures !loading && !isInitialLoad
      ensures posts == old(posts) && error == old(error)
      ensures searchTerm == old(searchTerm) && pendingTimer == old(pendingTimer) && now == old(now)
    {
      loading := false;
      isInitialLoad := false;
      if liveToken == Some(token) {
        liveToken := None;
      }
      requests := requests[token := requests[token].(phase := Finished)];
    }

    /**
     * The `fetch` (and `res.json()`) of request `token` settles. Only a request still in
     * flight and not aborted reacts, and that is the live one: a JSON success shows its
     * data, a rejection or `success: false` shows an error and clears the list, a non-ok
     * status starts reading the error text. Any other token changes nothing.
     */
    method Respond(token: nat, outcome: Outcome)
      requires Valid()
      modifies this
      ensures Valid()
      ensures searchTerm == old(searchTerm) && pendingTimer == old(pendingTimer) && now == old(now)
      ensures !(token < |old(requests)| && InFlight(old(requests)[token]) && old(requests)[token].phase == Awaiting) ==>
                posts == old(posts) && error == old(error) && loading == old(loading)
                && requests == old(requests) && liveToken == old(liveToken) && isInitialLoad == old(isInitialLoad)
      ensures token < |old(requests)| && InFlight(old(requests)[token]) && old(requests)[token].phase == Awaiting ==>
                old(liveToken) == Some(token)
                && match outcome
                   case NotOk(status) =>
                     requests == old(requests)[token := old(requests)[token].(phase := ReadingErrorText(status))]
                     && posts == old(posts) && error == old(error) && loading == old(loading) && liveToken == old(liveToken)
                     && isInitialLoad == old(isInitialLoad)
                   case Rejected(message) =>
                     posts == [] && error == Some(Message(if message == "" then UnknownError else message))
                     && !loading && !isInitialLoad && liveToken == None
                     && requests == old(requests)[token := old(requests)[token].(phase := Finished)]
                   case JsonReply(success, data, e) =>
                     (success ==> posts == AsList(data) && error == None)
                     && (!success ==> posts == [] && error == Some(Message(if e == "" then LoadError else e)))
                     && !loading && !isInitialLoad && liveToken == None
                     && requests == old(requests)[token := old(requests)[token].(phase := Finished)]
    {
      if token < |requests| && InFlight(requests[token]) && requests[token].phase == Awaiting {
        match outcome {
          case NotOk(status) =>
            requests := requests[token := requests[token].(phase := ReadingErrorText(status))];
            assert forall t :: 0 <= t < |requests| ==> (requests[t].phase == Finished <==> old(requests)[t].phase == Finished);
          case Rejected(message) =>
            error := Some(Message(if message == "" then UnknownError else message));
            posts := [];
            Finish(token);
          case JsonReply(success, data, e) =>
            if success {
              posts := AsList(data);
            } else {
              error := Some(Message(if e == "" then LoadError else e));
              posts := [];
            }
            Finish(token);
        }
      }
    }

    /**
     * `res.text()` of a non-ok reply settles (with `None` when it failed) for a request that
     * was not aborted, which is the live one: the HTTP error is shown and the list cleared.
     */
    method ErrorTextSettled(token: nat, text: Option<string>)
      requires Valid()
      modifies this
      ensures Valid()
      ensures searchTerm == old(searchTerm) && pendingTimer == old(pendingTimer) && now == old(now)
      ensures !(token < |old(requests)| && InFlight(old(requests)[token]) && old(requests)[token].phase.ReadingErrorText?) ==>
                posts == old(posts) && error == old(error) && loading == old(loading)
                && requests == old(requests) && liveToken == old(liveToken) && isInitialLoad == old(isInitialLoad)
      ensures token < |old(requests)| && InFlight(old(requests)[token]) && old(requests)[token].phase.ReadingErrorText? ==>
                old(liveToken) == Some(token) && liveToken == None
                && posts == [] && error == Some(HttpError(old(requests)[token].phase.status, text))
                && !loading && !isInitialLoad && requests == old(requests)[token := old(requests)[token].(phase := Finished)]
    {
      if token < |requests| && InFlight(requests[token]) && requests[token].phase.ReadingErrorText? {
        error := Some(HttpError(requests[token].phase.status, text));
        posts := [];
        Finish(token);
      }
    }

    /**
     * The abort of a superseded request reaches its pending read, which fails: the catch
     * block returns silently and only the `finally` block runs. Posts and error are kept,
     * the newer live request stays live, but `loading` drops to false.
     */
    method DeliverAbort(token: nat)
      requires Valid()
      modifies this
      ensures Valid()
      ensures posts == old(posts) && error == old(error) && liveToken == old(liveToken)
      ensures searchTerm == old(searchTerm) && pendingTimer == old(pendingTimer) && now == old(now)
      ensures token < |old(requests)| && old(requests)[token].aborted && old(requests)[token].phase != Finished ==>
                requests == old(requests)[token := old(requests)[token].(phase := Finished)] && !loading && !isInitialLoad
      ensures !(token < |old(requests)| && old(requests)[token].aborted && old(requests)[token].phase != Finished) ==>
                requests == old(requests) && loading == old(loading) && isInitialLoad == old(isInitialLoad)
    {
      if token < |requests| && requests[token].aborted && requests[token].phase != Finished {
        Finish(token);
      }
    }

    /**
     * The abort as the page's code handles it. While awaiting `fetch` or `res.json()` it is
     * swallowed; but while reading a non-ok body, `res.text().catch(() => null)` turns the
     * abort into a null text and a plain `Error` is thrown, so the superseded request shows
     * its HTTP error and clears the list.
     */
    method DeliverAbortAsWritten(token: nat)
      requires Valid()
      modifies this
      ensures liveToken == old(liveToken)
      ensures !(token < |old(requests)| && old(requests)[token].aborted && old(requests)[token].phase.ReadingErrorText?) ==> Valid()
      ensures searchTerm == old(searchTerm) && pendingTimer == old(pendingTimer) && now == old(now)
      ensures token < |old(requests)| && old(requests)[token].aborted && old(requests)[token].phase != Finished ==>
                requests == old(requests)[token := old(requests)[token].(phase := Finished)] && !loading && !isInitialLoad
      ensures !(token < |old(requests)| && old(requests)[token].aborted && old(requests)[token].phase != Finished) ==>
                requests == old(requests) && loading == old(loading) && isInitialLoad == old(isInitialLoad)
      ensures token < |old(requests)| && old(requests)[token].aborted && old(requests)[token].phase.ReadingErrorText? ==>
                posts == [] && error == Some(HttpError(old(requests)[token].phase.status, None))
      ensures !(token < |old(requests)| && old(requests)[token].aborted && old(requests)[token].phase.ReadingErrorText?) ==>
                posts == old(posts) && error == old(error)
    {
      if token < |requests| && requests[token].aborted && requests[token].phase != Finished {
        if requests[token].phase.ReadingErrorText? {
          error := Some(HttpError(requests[token].phase.status, None));
          posts := [];
        }
        Finish(token);
      }
    }

    /** The "Riprova" and "Ricarica" buttons: fetch again with the current search term. */
    method Retry()
      requires Valid()
      modifies this
      ensures Valid()
      ensures requests == AbortLive(old(requests), old(liveToken)) + [Request(searchTerm, Awaiting, false)]
      ensures liveToken == Some(|old(requests)|) && loading && error == None && posts == old(posts)
      ensures searchTerm == old(searchTerm) && pendingTimer == old(pendingTimer) && now == old(now)
      ensures isInitialLoad == old(isInitialLoad)
    {
      Issue(searchTerm);
    }

    /** The "Chiudi" button of the error banner. */
    method DismissError()
      requires Valid()
      modifies this`error
      ensures Valid() && error == None
    {
      error := None;
    }

    /**
     * The creation request of `handleSubmit` settles. `submittedTerm` is the search term of
     * the render whose `handleSubmit` closure was submitted: when the reply is ok and
     * successful the list is fetched again with that term, even if the search box has changed
     * since; otherwise nothing is fetched.
     */
    method CreateSettled(submittedTerm: string, ok: bool, success: bool)
      requires Valid()
      modifies this
      ensures Valid()
      ensures ok && success ==> requests == AbortLive(old(requests), old(liveToken)) + [Request(submittedTerm, Awaiting, false)]
                                && liveToken == Some(|old(requests)|) && loading && error == None
      ensures !(ok && success) ==> requests == old(requests) && liveToken == old(liveToken) && error == old(error)
                                   && loading == old(loading)
      ensures posts == old(posts) && searchTerm == old(searchTerm) && pendingTimer == old(pendingTimer)
      ensures now == old(now) && isInitialLoad == old(isInitialLoad)
    {
      if ok && success {
        Issue(submittedTerm);
      }
    }

    /**
     * The refetch after a creation as it is evidently meant ("keeping the current filter"):
     * the term in the search box when the reply arrives.
     */
    method CreateSettledIntended(ok: bool, success: bool)
      requires Valid()
      modifies this
      ensures Valid()
      ensures ok && success ==> requests == AbortLive(old(requests), old(liveToken)) + [Request(searchTerm, Awaiting, false)]
                                && liveToken == Some(|old(requests)|) && loading && error == None
      ensures !(ok && success) ==> requests == old(requests) && liveToken == old(liveToken) && error == old(error)
                                   && loading == old(loading)
      ensures posts == old(posts) && searchTerm == old(searchTerm) && pendingTimer == old(pendingTimer)
      ensures now == old(now) && isInitialLoad == old(isInitialLoad)
    {
      CreateSettled(searchTerm, ok, success);
    }
  }

  // ---------------------------------------------------------------- scenarios

  /**
   * A burst of keystrokes, each less than the debounce interval after the previous one,
   * fetches nothing; once the interval passes, exactly one request is sent, for the last term.
   */
  method TypeBurst(c: Coordinator, terms: seq<string>, gap: nat)
    requires c.Valid()
    requires |terms| >= 1 && terms[0] != c.searchTerm && gap < DebounceDelay
    requires forall i :: 1 <= i < |terms| ==> terms[i] != terms[i - 1]
    modifies c
    ensures c.Valid()
    ensures c.requests == AbortLive(old(c.requests), old(c.liveToken)) + [Request(terms[|terms| - 1], Awaiting, false)]
    ensures c.liveToken == Some(|old(c.requests)|) && c.pendingTimer == None
    ensures c.searchTerm == terms[|terms| - 1] && c.loading && c.error == None
    ensures c.posts == old(c.posts) && c.isInitialLoad == old(c.isInitialLoad)
    ensures c.now == old(c.now) + |terms| * gap + DebounceDelay
  {
    var i := 0;
    while i < |terms|
      invariant 0 <= i <= |terms|
      invariant c.Valid()
      invariant c.requests == old(c.requests) && c.liveToken == old(c.liveToken)
      invariant c.posts == old(c.posts) && c.isInitialLoad == old(c.isInitialLoad)
      invariant c.now == old(c.now) + i * gap
      invariant i > 0 ==> c.searchTerm == terms[i - 1] && c.pendingTimer.Some?
                          && c.pendingTimer.value.deadline == c.now + DebounceDelay - gap
      invariant i == 0 ==> c.searchTerm == old(c.searchTerm)
    {
      c.ChangeSearchTerm(terms[i]);
      c.Elapse(gap);
      i := i + 1;
    }
    c.Elapse(DebounceDelay);
  }

  /**
   * On mount both effects fetch with an empty query: two requests, the first one aborted.
   * The initial loader shows until one of them finishes, even with an empty result.
   */
  method MountScenario() returns (queries: seq<string>, firstAborted: bool, loaderBefore: bool, loaderAfter: bool)
    ensures queries == ["", ""] && firstAborted
    ensures loaderBefore && !loaderAfter
  {
    var c := new Coordinator();
    c.Mount();
    c.Elapse(DebounceDelay);
    queries := Queries(c.requests);
    firstAborted := c.requests[0].aborted;
    loaderBefore := c.ShowsInitialLoader();
    c.Respond(1, JsonReply(true, Items([]), ""));
    loaderAfter := c.ShowsInitialLoader();
  }

  /** Typing "a" then "ab" within the interval sends one search request, for "ab". */
  method DebounceScenario() returns (queries: seq<string>)
    ensures queries == ["", "", "ab"]
  {
    var c := new Coordinator();
    c.Mount();
    c.Elapse(DebounceDelay);
    c.ChangeSearchTerm("a");
    c.Elapse(100);
    c.ChangeSearchTerm("ab");
    c.Elapse(DebounceDelay - 1);
    assert |c.requests| == 2;
    c.Elapse(1);
    queries := Queries(c.requests);
  }

  /**
   * A search for "x" is superseded by one for "y"; "y" answers first, then the abort of "x"
   * arrives and a late reply for "x" is offered: the page still shows the result of "y".
   */
  method OutOfOrderScenario(x: seq<Post>, y: seq<Post>) returns (shown: seq<Post>, error: Option<ErrorMessage>)
    ensures shown == y && error == None
  {
    var c := new Coordinator();
    c.Issue("x");
    c.Issue("y");
    c.Respond(1, JsonReply(true, Items(y), ""));
    c.DeliverAbort(0);
    c.Respond(0, JsonReply(true, Items(x), ""));
    shown, error := c.posts, c.error;
  }

  /** The `finally` of a superseded request clears `loading` although a newer request is live. */
  method SupersededLoadingScenario() returns (loading: bool, live: Option<nat>)
    ensures !loading && live == Some(1)
  {
    var c := new Coordinator();
    c.Issue("a");
    c.Issue("b");
    c.DeliverAbort(0);
    loading, live := c.loading, c.liveToken;
  }

  /**
   * As written, a superseded request aborted while reading its non-ok body shows its
   * error and empties the list while the newer request is still live.
   */
  method StaleErrorScenario(y: seq<Post>) returns (error: Option<ErrorMessage>, shown: seq<Post>, live: Option<nat>)
    ensures error == Some(HttpError(500, None)) && shown == [] && live == Some(2)
  {
    var c := new Coordinator();
    c.Issue("");
    c.Respond(0, JsonReply(true, Items(y), ""));
    c.Issue("a");
    c.Respond(1, NotOk(500));
    c.Issue("b");
    c.DeliverAbortAsWritten(1);
    error, shown, live := c.error, c.posts, c.liveToken;
  }

  /** With the abort honoured, the same sequence keeps the list shown and no error. */
  method StaleErrorCorrectedScenario(y: seq<Post>) returns (error: Option<ErrorMessage>, shown: seq<Post>, live: Option<nat>)
    ensures error == None && shown == y && live == Some(2)
  {
    var c := new Coordinator();
    c.Issue("");
    c.Respond(0, JsonReply(true, Items(y), ""));
    c.Issue("a");
    c.Respond(1, NotOk(500));
    c.Issue("b");
    c.DeliverAbort(1);
    error, shown, live := c.error, c.posts, c.liveToken;
  }

  /**
   * As written, the refetch after a creation uses the term of the submitting render: the
   * search "abc" typed while the creation was pending is aborted and the unfiltered list
   * is requested, while the search box still reads "abc".
   */
  method StaleRefetchScenario() returns (query: string, term: string, searchAborted: bool)
    ensures query == "" && term == "abc" && searchAborted
  {
    var c := new Coordinator();
    c.Mount();
    c.Elapse(DebounceDelay);
    var submitted := c.searchTerm;
    c.ChangeSearchTerm("abc");
    c.Elapse(DebounceDelay);
    c.CreateSettled(submitted, true, true);
    query, term, searchAborted := c.requests[3].query, c.searchTerm, c.requests[2].aborted;
  }

  /** With the intended refetch, the same events request the term in the search box. */
  method CurrentRefetchScenario() returns (query: string, term: string)
    ensures query == "abc" && term == "abc"
  {
    var c := new Coordinator();
    c.Mount();
    c.Elapse(DebounceDelay);
    c.ChangeSearchTerm("abc");
    c.Elapse(DebounceDelay);
    c.CreateSettledIntended(true, true);
    query, term := c.requests[3].query, c.searchTerm;
  }
}

=== FILE: posts.dfy ===
/**
 * The featured-posts API route: a module-level array of posts acting as the store,
 * a GET handler (lookup by id, or the featured posts narrowed by a text search)
 * and a POST handler (validate, fill in defaults, append).
 */
module Posts {
  import opened Wrappers
  import opened Seqs
  import opened Text

  datatype Post = Post(
    id: int,
    title: string,
    slug: string,
    excerpt: string,
    image: string,
    createdAt: string,
    featured: bool,
    tags: seq<string>)

  /** A JSON value, as the `featured` and `tags` fields of a creation body may hold. */
  datatype Json = Null | Bool(b: bool) | Number(n: int) | Str(s: string) | Array(items: seq<string>) | Object

  /** The fields of a creation body; `None` is a field that is absent (`undefined`). */
  datatype Body = Body(
    title: Option<string>,
    slug: Option<string>,
    excerpt: Option<string>,
    image: Option<string>,
    featured: Option<Json>,
    tags: Option<Json>)

  /**
   * What `request.json()` produced: a body that is not JSON at all, or a JSON value;
   * `Parsed(None)` is `null` or any JSON value that has none of the fields.
   */
  datatype CreateRequest = Malformed | Parsed(body: Option<Body>)

  /**
   * The `id` search parameter: `NoId` when it is absent or empty (falsy), `Id(n)` when
   * `Number(id)` is the integer `n`, `NotAnInteger` for any other non-empty text.
   */
  datatype IdParam = NoId | Id(n: int) | NotAnInteger

  datatype Payload =
    | One(post: Post)
    | Many(posts: seq<Post>, count: nat)
    | Created(post: Post, message: string)
    | Failure(error: string)

  /** An HTTP response: its status, the `success` discriminant and the rest of the JSON object. */
  datatype Response = Response(status: nat, success: bool, payload: Payload)

  const NotFoundError := "Post non trovato"
  const MissingFieldsError := "Campi obbligatori mancanti: title e slug"
  const InvalidJsonError := "Corpo JSON non valido"
  const CreatedMessage := "Post creato con successo"

  const EmptyBody := Body(None, None, None, None, None, None)

  predicate UniqueIds(posts: seq<Post>) {
    forall i, j :: 0 <= i < j < |posts| ==> posts[i].id != posts[j].id
  }

  predicate PositiveIds(posts: seq<Post>) {
    forall i :: 0 <= i < |posts| ==> posts[i].id >= 1
  }

  // ---------------------------------------------------------------- identifiers

  /** `Math.max` over the ids of a non-empty collection. */
  function MaxId(posts: seq<Post>): (m: int)
    requires |posts| > 0
    ensures exists i :: 0 <= i < |posts| && posts[i].id == m
    ensures forall i :: 0 <= i < |posts| ==> posts[i].id <= m
  {
    if |posts| == 1 then posts[0].id
    else
      var m := MaxId(posts[1..]);
      if posts[0].id >= m then posts[0].id
      else
        assert forall i :: 1 <= i < |posts| ==> posts[i] == posts[1..][i - 1];
        m
  }

  /** `getNextId`: one more than the largest id, or 1 for an empty collection. */
  function NextId(posts: seq<Post>): (r: int)
    ensures posts == [] ==> r == 1
    ensures posts != [] ==> exists i :: 0 <= i < |posts| && posts[i].id == r - 1
    ensures forall i :: 0 <= i < |posts| ==> posts[i].id < r
    ensures PositiveIds(posts) ==> r >= 1
  {
    if |posts| > 0 then MaxId(posts) + 1 else 1
  }

  // ---------------------------------------------------------------- lookup by id

  /** `Array.prototype.find` on the id: the first post whose id is `n`. */
  function Find(posts: seq<Post>, n: int): (r: Option<Post>)
    ensures r.None? <==> forall i :: 0 <= i < |posts| ==> posts[i].id != n
    ensures r.Some? ==> exists i :: 0 <= i < |posts| && posts[i] == r.value && r.value.id == n
                                    && forall j :: 0 <= j < i ==> posts[j].id != n
  {
    if posts == [] then None
    else if posts[0].id == n then Some(posts[0])
    else
      var r := Find(posts[1..], n);
      assert forall i :: 1 <= i < |posts| ==> posts[i] == posts[1..][i - 1];
      if r.Some? then
        var k :| 0 <= k < |posts[1..]| && posts[1..][k] == r.value && r.value.id == n
                 && forall j :: 0 <= j < k ==> posts[1..][j].id != n;
        assert posts[k + 1] == r.value;
        r
      else r
  }

  /** The id branch of GET: the post with that id whatever its `featured` flag, or 404. */
  function GetById(posts: seq<Post>, n: int): (r: Response)
    ensures (forall i :: 0 <= i < |posts| ==> posts[i].id != n) <==> r == Response(404, false, Failure(NotFoundError))
    ensures r.success ==> r.status == 200 && r.payload.One? && r.payload.post.id == n && r.payload.post in posts
  {
    match Find(posts, n)
    case None => Response(404, false, Failure(NotFoundError))
    case Some(p) => Response(200, true, One(p))
  }

  // ---------------------------------------------------------------- listing and search

  predicate IsFeatured(p: Post) {
    p.featured
  }

  /** The first `filter` of GET: only the posts whose `featured` flag is true, in store order. */
  function FilterFeatured(posts: seq<Post>): (r: seq<Post>)
    ensures forall i :: 0 <= i < |r| ==> r[i].featured && r[i] in posts
    ensures forall i :: 0 <= i < |posts| && posts[i].featured ==> posts[i] in r
    ensures forall p :: multiset(r)[p] == if p.featured then multiset(posts)[p] else 0
    ensures IsSubsequence(r, posts)
  {
    FilterIsSubsequence(posts, IsFeatured);
    FilterCounts(posts, IsFeatured);
    Filter(posts, IsFeatured)
  }

  /** `tags.some(t => String(t).toLowerCase().includes(q))`. */
  function AnyTagIncludes(tags: seq<string>, q: string): (b: bool)
    ensures b <==> exists i :: 0 <= i < |tags| && Includes(Lower(tags[i]), q)
  {
    if tags == [] then false
    else if Includes(Lower(tags[0]), q) then true
    else
      var b := AnyTagIncludes(tags[1..], q);
      assert forall i :: 1 <= i < |tags| ==> tags[i] == tags[1..][i - 1];
      b
  }

  /**
   * The search predicate of GET for a lower-cased query: the title, the excerpt (each only
   * when non-empty, as JavaScript's `&&` on strings) or some tag contains it, ignoring case.
   */
  predicate Matches(p: Post, qLower: string)
    ensures qLower != [] ==>
              (Matches(p, qLower) <==> Includes(Lower(p.title), qLower) || Includes(Lower(p.excerpt), qLower)
                                       || AnyTagIncludes(p.tags, qLower))
  {
    (p.title != "" && Includes(Lower(p.title), qLower))
    || (p.excerpt != "" && Includes(Lower(p.excerpt), qLower))
    || AnyTagIncludes(p.tags, qLower)
  }

  /** The second `filter` of GET, for an already lower-cased query. */
  function FilterMatching(posts: seq<Post>, qLower: string): (r: seq<Post>)
    ensures forall i :: 0 <= i < |r| ==> r[i] in posts && Matches(r[i], qLower)
    ensures forall i :: 0 <= i < |posts| && Matches(posts[i], qLower) ==> posts[i] in r
    ensures forall p :: multiset(r)[p] == if Matches(p, qLower) then multiset(posts)[p] else 0
    ensures IsSubsequence(r, posts)
  {
    var keep := (p: Post) => Matches(p, qLower);
    FilterIsSubsequence(posts, keep);
    FilterCounts(posts, keep);
    Filter(posts, keep)
  }

  /** The text search of GET on a trimmed query: the identity when the query is empty. */
  function Search(posts: seq<Post>, q: string): (r: seq<Post>)
    ensures q == "" ==> r == posts
    ensures q != "" ==> forall i :: 0 <= i < |r| ==> r[i] in posts && Matches(r[i], Lower(q))
    ensures q != "" ==> forall i :: 0 <= i < |posts| && Matches(posts[i], Lower(q)) ==> posts[i] in r
    ensures q != "" ==> forall p :: multiset(r)[p] == if Matches(p, Lower(q)) then multiset(posts)[p] else 0
    ensures IsSubsequence(r, posts)
  {
    if q == "" then
      FilterKeepsAll(posts, (p: Post) => true);
      FilterIsSubsequence(posts, (p: Post) => true);
      posts
    else FilterMatching(posts, Lower(q))
  }

  /** `searchParams.get("q")?.trim() ?? ""`. */
  function NormalizeQuery(q: Option<string>): (r: string)
    ensures q.None? ==> r == ""
    ensures q.Some? ==> (r == "" <==> AllWhitespace(q.value))
  {
    match q
    case None => ""
    case Some(s) => Trim(s)
  }

  /** The list branch of GET: featured posts, then the text search, with their count. */
  function ListFeatured(posts: seq<Post>, q: Option<string>): (r: Response)
    ensures r.status == 200 && r.success && r.payload.Many?
    ensures r.payload.count == |r.payload.posts|
    ensures forall i :: 0 <= i < |r.payload.posts| ==> r.payload.posts[i].featured
    ensures IsSubsequence(r.payload.posts, posts)
  {
    var featured := FilterFeatured(posts);
    var found := Search(featured, NormalizeQuery(q));
    SubsequenceTransitive(found, featured, posts);
    Response(200, true, Many(found, |found|))
  }

  /** GET: an `id` parameter selects one post; otherwise the featured list, optionally searched. */
  function HandleGet(posts: seq<Post>, id: IdParam, q: Option<string>): (r: Response)
    ensures r.success <==> r.status == 200
    ensures !r.success ==> r == Response(404, false, Failure(NotFoundError))
    ensures id.NoId? <==> r.payload.Many?
    ensures r.payload.One? <==> id.Id? && exists i :: 0 <= i < |posts| && posts[i].id == id.n
    ensures r.payload.One? ==> r.payload.post in posts && r.payload.post.id == id.n
  {
    match id
    case NoId => ListFeatured(posts, q)
    case Id(n) => GetById(posts, n)
    case NotAnInteger => Response(404, false, Failure(NotFoundError))
  }

  /** With unique ids, asking for the id of any stored post returns that post, featured or not. */
  lemma LookupFindsEveryPost(posts: seq<Post>, k: nat, q: Option<string>)
    requires UniqueIds(posts) && k < |posts|
    ensures HandleGet(posts, Id(posts[k].id), q) == Response(200, true, One(posts[k]))
  {
    var r := Find(posts, posts[k].id);
    var i :| 0 <= i < |posts| && posts[i] == r.value && r.value.id == posts[k].id;
    assert i == k;
  }

  /** An absent, empty or whitespace-only query lists exactly the featured subsequence. */
  lemma EmptyQueryListsFeatured(posts: seq<Post>, q: Option<string>)
    requires q.None? || AllWhitespace(q.value)
    ensures HandleGet(posts, NoId, q).payload.posts == FilterFeatured(posts)
  {
  }

  /**
   * With a query that is not blank, a post is listed exactly when it is featured and the
   * trimmed, lower-cased query occurs in its lower-cased title, excerpt or one of its tags.
   */
  lemma SearchKeepsExactly(posts: seq<Post>, q: string, p: Post)
    requires !AllWhitespace(q)
    ensures p in HandleGet(posts, NoId, Some(q)).payload.posts
      <==> p in posts && p.featured
           && (Includes(Lower(p.title), Lower(Trim(q)))
               || Includes(Lower(p.excerpt), Lower(Trim(q)))
               || exists i :: 0 <= i < |p.tags| && Includes(Lower(p.tags[i]), Lower(Trim(q))))
  {
    var ql := Lower(Trim(q));
    assert |ql| > 0;
    var featured := FilterFeatured(posts);
    var found := HandleGet(posts, NoId, Some(q)).payload.posts;
    assert found == FilterMatching(featured, ql);
    assert p in found <==> multiset(found)[p] > 0;
    assert p in featured <==> multiset(featured)[p] > 0;
    assert p in posts <==> multiset(posts)[p] > 0;
  }

  /** The search ignores the case of the query. */
  lemma SearchCaseInsensitive(posts: seq<Post>, q1: string, q2: string)
    requires Lower(q1) == Lower(q2)
    ensures HandleGet(posts, NoId, Some(q1)) == HandleGet(posts, NoId, Some(q2))
  {
    LowerTrimCommute(q1);
    LowerTrimCommute(q2);
    assert Lower(Trim(q1)) == Lower(Trim(q2));
    assert |Trim(q1)| == |Trim(q2)|;
  }

  // ---------------------------------------------------------------- creation

  /** JavaScript's `Boolean(v)`: false exactly for the falsy values `null`, `false`, `0` and `""`. */
  predicate Truthy(v: Json)
    ensures Truthy(v) <==> !(v == Null || v == Bool(false) || v == Number(0) || v == Str(""))
  {
    match v
    case Null => false
    case Bool(b) => b
    case Number(n) => n != 0
    case Str(s) => s != ""
    case Array(_) => true
    case Object => true
  }

  /** `!title || !slug`: a required field is absent or empty. */
  predicate MissingRequired(body: Body)
    ensures !MissingRequired(body) <==> body.title.Some? && body.title.value != [] && body.slug.Some? && body.slug.value != []
  {
    body.title.GetOr("") == "" || body.slug.GetOr("") == ""
  }

  /** The post built from a valid body: id from `getNextId`, defaults for the optional fields. */
  function NewPost(posts: seq<Post>, body: Body, createdAt: string): (p: Post)
    requires !MissingRequired(body)
    ensures p.id == NextId(posts) && p.createdAt == createdAt
    ensures forall i :: 0 <= i < |posts| ==> posts[i].id < p.id
    ensures p.title == body.title.value && p.slug == body.slug.value
    ensures p.excerpt == body.excerpt.GetOr("") && p.image == body.image.GetOr("")
    ensures p.featured <==> body.featured.Some? && Truthy(body.featured.value)
    ensures p.tags == if body.tags.Some? && body.tags.value.Array? then body.tags.value.items else []
  {
    Post(
      NextId(posts),
      body.title.value,
      body.slug.value,
      body.excerpt.GetOr(""),
      body.image.GetOr(""),
      createdAt,
      Truthy(body.featured.GetOr(Bool(false))),
      match body.tags
      case Some(Array(items)) => items
      case _ => [])
  }

  /** The response of POST for a store holding `posts`. */
  function Create(posts: seq<Post>, req: CreateRequest, createdAt: string): (r: Response)
    ensures r.success <==> r.status == 201
    ensures req.Malformed? ==> r == Response(400, false, Failure(InvalidJsonError))
    ensures req.Parsed? && MissingRequired(req.body.GetOr(EmptyBody))
            ==> r == Response(400, false, Failure(MissingFieldsError))
    ensures r.success <==> req.Parsed? && !MissingRequired(req.body.GetOr(EmptyBody))
    ensures r.success ==> r.payload.Created? && r.payload.message == CreatedMessage
                          && r.payload.post.createdAt == createdAt
                          && forall i :: 0 <= i < |posts| ==> posts[i].id < r.payload.post.id
    ensures r.success ==> r.payload.post == NewPost(posts, req.body.GetOr(EmptyBody), createdAt)
  {
    match req
    case Malformed => Response(400, false, Failure(InvalidJsonError))
    case Parsed(b) =>
      var body := b.GetOr(EmptyBody);
      if MissingRequired(body) then Response(400, false, Failure(MissingFieldsError))
      else Response(201, true, Created(NewPost(posts, body, createdAt), CreatedMessage))
  }

  /** The store after POST: one post appended on success, nothing otherwise. */
  function AfterCreate(posts: seq<Post>, r: Response): (a: seq<Post>)
    requires r.success ==> r.payload.Created?
    ensures |a| == if r.success then |posts| + 1 else |posts|
    ensures a[..|posts|] == posts
    ensures r.success ==> a[|posts|] == r.payload.post
  {
    if r.success then posts + [r.payload.post] else posts
  }

  /** Creation keeps ids unique and positive: the new id is fresh. */
  lemma CreatePreservesIds(posts: seq<Post>, req: CreateRequest, createdAt: string)
    requires UniqueIds(posts) && PositiveIds(posts)
    ensures UniqueIds(AfterCreate(posts, Create(posts, req, createdAt)))
    ensures PositiveIds(AfterCreate(posts, Create(posts, req, createdAt)))
  {
    var r := Create(posts, req, createdAt);
    if r.success {
      var s := posts + [r.payload.post];
      assert r.payload.post == NewPost(posts, req.body.GetOr(EmptyBody), createdAt);
      assert forall i :: 0 <= i < |posts| ==> s[i] == posts[i];
    }
  }

  /** A body with only a title and a slug creates a post with every default. */
  lemma CreateDefaults(posts: seq<Post>, title: string, slug: string, createdAt: string)
    requires title != "" && slug != ""
    ensures Create(posts, Parsed(Some(Body(Some(title), Some(slug), None, None, None, None))), createdAt)
         == Response(201, true, Created(Post(NextId(posts), title, slug, "", "", createdAt, false, []), CreatedMessage))
  {
  }

  // ---------------------------------------------------------------- the store

  /**
   * The five posts the module-level array starts with: ids 1 to 5, posts 3 and 4 not featured.
   * Every use passes `SeedText`; the text fields are a parameter so that the facts about ids
   * and flags are proved without the verifier unfolding the long literal texts.
   */
  function SeedPosts(text: nat -> SeedFields): (s: seq<Post>)
    ensures |s| == 5
    ensures forall i :: 0 <= i < 5 ==> s[i].id == i + 1
    ensures forall i :: 0 <= i < 5 ==> (s[i].featured <==> i != 2 && i != 3)
  {
    seq(5, i requires 0 <= i < 5 =>
      var t := text(i);
      Post(i + 1, t.title, t.slug, t.excerpt, t.image, t.createdAt, i != 2 && i != 3, t.tags))
  }

  /** The text fields of one seed post. */
  datatype SeedFields = SeedFields(title: string, slug: string, excerpt: string, image: string,
                                   createdAt: string, tags: seq<string>)

  /** The text fields of the seed post at index `i`. */
  function SeedText(i: nat): SeedFields {
    match i
    case 0 => SeedFields("Design minimalista: principi fondamentali", "design-minimalista-principi",
                "Scopri come applicare i principi del design minimalista alle interfacce web.",
                "/images/posts/design-minimal.jpg", "2025-05-10T10:00:00.000Z", ["design", "ui"])
    case 1 => SeedFields("Ottimizzare le performance in Next.js", "ottimizzare-performance-nextjs",
                "Trucchi concreti per migliorare il tempo di caricamento e ridurre il bundle size.",
                "/images/posts/nextjs-performance.jpg", "2025-06-01T12:00:00.000Z", ["nextjs", "performance"])
    case 2 => SeedFields("Introduzione a TypeScript per front-end", "introduzione-typescript-frontend",
                "Perché usare TypeScript e come iniziare in progetti React / Next.js.",
                "/images/posts/typescript-intro.jpg", "2025-06-15T09:30:00.000Z", ["typescript", "frontend"])
    case 3 => SeedFields("Animazioni con CSS e Framer Motion", "animazioni-css-framer-motion",
                "Confronto tra animazioni CSS e quelle gestite con Framer Motion.",
                "/images/posts/animations.jpg", "2025-07-10T08:00:00.000Z", ["css", "animations"])
    case _ => SeedFields("Accessibilità: checklist rapida", "accessibilita-checklist-rapida",
                "Controlli pratici da fare prima di pubblicare una pagina web.",
                "/images/posts/accessibility-check.jpg", "2025-06-02T10:45:00.000Z", ["accessibility", "qa"])
  }

  /** The seed has unique positive ids and the next id it hands out is 6. */
  lemma SeedIds()
    ensures UniqueIds(SeedPosts(SeedText)) && PositiveIds(SeedPosts(SeedText))
    ensures NextId(SeedPosts(SeedText)) == 6
  {
    ConsecutiveIds(SeedPosts(SeedText));
  }

  /** Ids 1, 2, ..., n in order are unique and positive, and the next id is n + 1. */
  lemma {:induction false} ConsecutiveIds(s: seq<Post>)
    requires forall i :: 0 <= i < |s| ==> s[i].id == i + 1
    ensures UniqueIds(s) && PositiveIds(s)
    ensures NextId(s) == |s| + 1
  {
    if |s| > 0 {
      assert s[|s| - 1].id == |s|;
    }
  }

  /** Without a query the seed lists posts 1, 2 and 5, in that order. */
  lemma SeedListing()
    ensures HandleGet(SeedPosts(SeedText), NoId, None).payload.posts
         == [SeedPosts(SeedText)[0], SeedPosts(SeedText)[1], SeedPosts(SeedText)[4]]
  {
    FeaturedOfFive(SeedPosts(SeedText));
    assert FilterFeatured(SeedPosts(SeedText)) == Filter(SeedPosts(SeedText), IsFeatured);
  }

  /** Id 999 is not in the seed: GET answers 404. */
  lemma SeedMissingId()
    ensures HandleGet(SeedPosts(SeedText), Id(999), None) == Response(404, false, Failure(NotFoundError))
  {
  }

  lemma FeaturedOfFive(s: seq<Post>)
    requires |s| == 5
    requires forall i :: 0 <= i < 5 ==> (s[i].featured <==> i != 2 && i != 3)
    ensures Filter(s, IsFeatured) == [s[0], s[1], s[4]]
  {
    assert s[4..][1..] == [];
    assert Filter(s[4..], IsFeatured) == [s[4]];
    assert Filter(s[3..], IsFeatured) == [s[4]];
    assert Filter(s[2..], IsFeatured) == [s[4]];
    assert Filter(s[1..], IsFeatured) == [s[1], s[4]];
  }

  /** The module-level `featuredPosts` array and the two route handlers over it. */
  class FeaturedPosts {
    var posts: seq<Post>

    predicate Valid()
      reads this
    {
      UniqueIds(posts) && PositiveIds(posts)
    }

    constructor()
      ensures posts == SeedPosts(SeedText) && Valid()
    {
      posts := SeedPosts(SeedText);
      SeedIds();
    }

    /** GET: reads the store and leaves it as it is. */
    method Get(id: IdParam, q: Option<string>) returns (r: Response)
      ensures r == HandleGet(posts, id, q)
    {
      match id {
        case NoId =>
          var found := Search(FilterFeatured(posts), NormalizeQuery(q));
          r := Response(200, true, Many(found, |found|));
        case Id(n) =>
          var p := Find(posts, n);
          if p.None? {
            r := Response(404, false, Failure(NotFoundError));
          } else {
            r := Response(200, true, One(p.value));
          }
        case NotAnInteger =>
          r := Response(404, false, Failure(NotFoundError));
      }
    }

    /** POST: validates the body, appends the new post at the end (`push`) and answers 201. */
    method Post(req: CreateRequest, createdAt: string) returns (r: Response)
      requires Valid()
      modifies this
      ensures Valid()
      ensures r == Create(old(posts), req, createdAt)
      ensures posts == AfterCreate(old(posts), r)
    {
      CreatePreservesIds(posts, req, createdAt);
      if req.Malformed? {
        r := Response(400, false, Failure(InvalidJsonError));
        return;
      }
      var body := req.body.GetOr(EmptyBody);
      if MissingRequired(body) {
        r := Response(400, false, Failure(MissingFieldsError));
        return;
      }
      var newPost := NewPost(posts, body, createdAt);
      posts := posts + [newPost];
      r := Response(201, true, Created(newPost, CreatedMessage));
    }
  }
}

=== FILE: seqs.dfy ===
/** Order-preserving selection from a sequence: JavaScript's `Array.prototype.filter`. */
module Seqs {

  /** `a` can be obtained from `b` by deleting elements, without reordering. */
  predicate IsSubsequence<T(==)>(a: seq<T>, b: seq<T>)
    decreases |b|
  {
    if a == [] then true
    else if b == [] then false
    else (a[0] == b[0] && IsSubsequence(a[1..], b[1..])) || IsSubsequence(a, b[1..])
  }

  /** The elements of `s` for which `keep` holds, in their original order. */
  function Filter<T(!new)>(s: seq<T>, keep: T -> bool): (r: seq<T>)
    ensures |r| <= |s|
    ensures forall i :: 0 <= i < |r| ==> r[i] in s && keep(r[i])
    ensures forall i :: 0 <= i < |s| && keep(s[i]) ==> s[i] in r
  {
    if s == [] then []
    else if keep(s[0]) then [s[0]] + Filter(s[1..], keep)
    else Filter(s[1..], keep)
  }

  /** Filtering keeps every kept element exactly as many times as it occurs, and no other. */
  lemma {:induction false} FilterCounts<T(!new)>(s: seq<T>, keep: T -> bool)
    ensures forall x :: multiset(Filter(s, keep))[x] == if keep(x) then multiset(s)[x] else 0
  {
    if s != [] {
      FilterCounts(s[1..], keep);
      assert s == [s[0]] + s[1..];
    }
  }

  /** Filtering keeps the original order: the result is a subsequence of the input. */
  lemma {:induction false} FilterIsSubsequence<T(!new)>(s: seq<T>, keep: T -> bool)
    ensures IsSubsequence(Filter(s, keep), s)
  {
    if s != [] {
      FilterIsSubsequence(s[1..], keep);
      var r := Filter(s, keep);
      if keep(s[0]) {
        assert r[0] == s[0] && r[1..] == Filter(s[1..], keep);
      } else if r != [] {
        assert r == Filter(s[1..], keep);
      }
    }
  }

  /** When every element is kept, filtering is the identity. */
  lemma {:induction false} FilterKeepsAll<T(!new)>(s: seq<T>, keep: T -> bool)
    requires forall i :: 0 <= i < |s| ==> keep(s[i])
    ensures Filter(s, keep) == s
  {
    if s != [] {
      FilterKeepsAll(s[1..], keep);
      assert [s[0]] + s[1..] == s;
    }
  }

  /** A subsequence of a subsequence is a subsequence. */
  lemma {:induction false} SubsequenceTransitive<T>(a: seq<T>, b: seq<T>, c: seq<T>)
    requires IsSubsequence(a, b) && IsSubsequence(b, c)
    ensures IsSubsequence(a, c)
    decreases |c|
  {
    if a != [] {
      assert b != [] && c != [];
      if b[0] == c[0] && IsSubsequence(b[1..], c[1..]) {
        if a[0] == b[0] && IsSubsequence(a[1..], b[1..]) {
          SubsequenceTransitive(a[1..], b[1..], c[1..]);
        } else {
          SubsequenceTransitive(a, b[1..], c[1..]);
        }
      } else {
        SubsequenceTransitive(a, b, c[1..]);
      }
    }
  }
}

=== FILE: text.dfy ===
/**
 * The JavaScript string built-ins the post service and the page rely on:
 * `trim`, `toLowerCase`, `includes` and `split`, on strings as sequences of characters.
 */
module Text {

  /** ECMAScript WhiteSpace and LineTerminator code points: what `String.prototype.trim` strips. */
  predicate IsWhitespace(c: char) {
    c == ' ' || c == '\t' || c == '\n' || c == '\r' || c == '\U{0B}' || c == '\U{0C}'
    || c == '\U{A0}' || c == '\U{1680}' || ('\U{2000}' <= c <= '\U{200A}')
    || c == '\U{2028}' || c == '\U{2029}' || c == '\U{202F}' || c == '\U{205F}'
    || c == '\U{3000}' || c == '\U{FEFF}'
  }

  predicate AllWhitespace(s: string) {
    forall i :: 0 <= i < |s| ==> IsWhitespace(s[i])
  }

  /** The number of whitespace characters at the start of `s`. */
  function LeadingWhitespace(s: string): (n: nat)
    ensures n <= |s|
    ensures AllWhitespace(s[..n])
    ensures n < |s| ==> !IsWhitespace(s[n])
  {
    if s == [] || !IsWhitespace(s[0]) then 0
    else
      var n := 1 + LeadingWhitespace(s[1..]);
      assert forall i :: 1 <= i < n ==> s[..n][i] == s[1..][..n - 1][i - 1];
      n
  }

  /** The number of whitespace characters at the end of `s`. */
  function TrailingWhitespace(s: string): (n: nat)
    ensures n <= |s|
    ensures AllWhitespace(s[|s| - n..])
    ensures n < |s| ==> !IsWhitespace(s[|s| - 1 - n])
  {
    if s == [] || !IsWhitespace(s[|s| - 1]) then 0
    else
      var init := s[..|s| - 1];
      var n := 1 + TrailingWhitespace(init);
      assert s[|s| - n..] == init[|init| - (n - 1)..] + [s[|s| - 1]];
      n
  }

  /** `String.prototype.trim`: `s` without its leading and trailing whitespace. */
  function Trim(s: string): (r: string)
    ensures r == [] <==> AllWhitespace(s)
    ensures r != [] ==> !IsWhitespace(r[0]) && !IsWhitespace(r[|r| - 1])
  {
    var a := LeadingWhitespace(s);
    if a == |s| then
      assert s[..a] == s;
      []
    else
      var b := |s| - TrailingWhitespace(s);
      assert a < b;
      assert !AllWhitespace(s) by { assert !IsWhitespace(s[a]); }
      s[a..b]
  }

  /** What `Trim` removes is whitespace only: `s` is the trimmed string padded on both sides. */
  lemma TrimIsPadded(s: string)
    ensures exists i :: PaddedAt(s, Trim(s), i)
    ensures forall c :: c in Trim(s) ==> c in s
  {
    var a := LeadingWhitespace(s);
    if a == |s| {
      assert s[..a] == s && Trim(s) == [];
      assert PaddedAt(s, [], |s|);
    } else {
      var b := |s| - TrailingWhitespace(s);
      var r := s[a..b];
      assert Trim(s) == r;
      assert s[a..a + |r|] == r && s[a + |r|..] == s[|s| - TrailingWhitespace(s)..];
      assert PaddedAt(s, r, a);
    }
  }

  /** `s` is `r` with whitespace only before (the first `i` characters) and after it. */
  predicate PaddedAt(s: string, r: string, i: nat) {
    i + |r| <= |s| && s[i..i + |r|] == r && AllWhitespace(s[..i]) && AllWhitespace(s[i + |r|..])
  }

  /** A string without whitespace at either end is its own trim. */
  lemma TrimKeepsTrimmed(s: string)
    requires s != [] && !IsWhitespace(s[0]) && !IsWhitespace(s[|s| - 1])
    ensures Trim(s) == s
  {
    assert LeadingWhitespace(s) == 0;
    assert TrailingWhitespace(s) == 0;
    assert s[0..|s|] == s;
  }

  /** ASCII case mapping of one character (`toLowerCase` restricted to A-Z). */
  function LowerChar(c: char): char {
    if 'A' <= c <= 'Z' then (c as int + 32) as char else c
  }

  /** `String.prototype.toLowerCase`, on the ASCII letters. */
  function Lower(s: string): (r: string)
    ensures |r| == |s|
    ensures forall i :: 0 <= i < |r| ==> !('A' <= r[i] <= 'Z')
    ensures forall i :: 0 <= i < |s| && !('A' <= s[i] <= 'Z') ==> r[i] == s[i]
    ensures forall i :: 0 <= i < |s| && 'A' <= s[i] <= 'Z' ==>
              'a' <= r[i] <= 'z' && r[i] as int - 'a' as int == s[i] as int - 'A' as int
  {
    seq(|s|, i requires 0 <= i < |s| => LowerChar(s[i]))
  }

  /** Two characters that are equal, or the same ASCII letter in different case. */
  predicate SameUpToCase(a: char, b: char) {
    a == b || ('A' <= a <= 'Z' && b as int == a as int + 32) || ('A' <= b <= 'Z' && a as int == b as int + 32)
  }

  /** Two texts lower-case to the same text exactly when they agree letter by letter up to case. */
  lemma LowerEqualIff(s: string, t: string)
    ensures Lower(s) == Lower(t) <==> |s| == |t| && forall i :: 0 <= i < |s| ==> SameUpToCase(s[i], t[i])
  {
    if |s| == |t| && forall i :: 0 <= i < |s| ==> SameUpToCase(s[i], t[i]) {
      forall i | 0 <= i < |s|
        ensures Lower(s)[i] == Lower(t)[i]
      {
        assert SameUpToCase(s[i], t[i]);
      }
    }
    if Lower(s) == Lower(t) {
      forall i | 0 <= i < |s|
        ensures SameUpToCase(s[i], t[i])
      {
        assert Lower(s)[i] == Lower(t)[i];
      }
    }
  }

  /** Whitespace is not affected by case mapping, so trimming and lower-casing commute. */
  lemma LowerTrimCommute(s: string)
    ensures Lower(Trim(s)) == Trim(Lower(s))
  {
    LeadingLower(s);
    TrailingLower(s);
    TrimBounds(s);
    TrimBounds(Lower(s));
    var a, b := LeadingWhitespace(s), |s| - TrailingWhitespace(s);
    if a < |s| {
      LowerSlice(s, a, b);
    }
  }

  /** `Trim` as a slice between the leading and the trailing whitespace. */
  lemma TrimBounds(s: string)
    ensures LeadingWhitespace(s) == |s| ==> Trim(s) == []
    ensures LeadingWhitespace(s) < |s| ==> Trim(s) == s[LeadingWhitespace(s)..|s| - TrailingWhitespace(s)]
  {
  }

  lemma LowerSlice(s: string, a: nat, b: nat)
    requires a <= b <= |s|
    ensures Lower(s[a..b]) == Lower(s)[a..b]
  {
  }

  lemma {:induction false} LeadingLower(s: string)
    ensures LeadingWhitespace(Lower(s)) == LeadingWhitespace(s)
  {
    if s != [] {
      var l := Lower(s);
      assert l[1..] == Lower(s[1..]);
      assert IsWhitespace(l[0]) == IsWhitespace(s[0]);
      LeadingLower(s[1..]);
    }
  }

  lemma {:induction false} TrailingLower(s: string)
    ensures TrailingWhitespace(Lower(s)) == TrailingWhitespace(s)
  {
    if s != [] {
      var l, init := Lower(s), s[..|s| - 1];
      assert l[..|l| - 1] == Lower(init);
      assert IsWhitespace(l[|l| - 1]) == IsWhitespace(s[|s| - 1]);
      TrailingLower(init);
      if IsWhitespace(s[|s| - 1]) {
        assert TrailingWhitespace(l) == 1 + TrailingWhitespace(Lower(init));
        assert TrailingWhitespace(s) == 1 + TrailingWhitespace(init);
      }
    }
  }

  /** `sub` occurs in `s` starting at index `i`. */
  predicate OccursAt(s: string, sub: string, i: nat) {
    i + |sub| <= |s| && s[i..i + |sub|] == sub
  }

  /** `String.prototype.includes`: some position of `s` starts an occurrence of `sub`. */
  predicate Includes(s: string, sub: string)
    decreases |s|
    ensures sub == [] ==> Includes(s, sub)
    ensures Includes(s, sub) ==> |sub| <= |s|
  {
    if |sub| > |s| then false
    else s[..|sub|] == sub || Includes(s[1..], sub)
  }

  /** `Includes` holds exactly when `sub` occurs at some index of `s`. */
  lemma {:induction false} IncludesIff(s: string, sub: string)
    ensures Includes(s, sub) <==> exists i :: OccursAt(s, sub, i)
  {
    if |sub| <= |s| {
      if s[..|sub|] == sub {
        assert OccursAt(s, sub, 0);
      } else {
        IncludesIff(s[1..], sub);
        if exists i :: OccursAt(s[1..], sub, i) {
          var i: nat :| OccursAt(s[1..], sub, i);
          assert s[i + 1..i + 1 + |sub|] == s[1..][i..i + |sub|];
          assert OccursAt(s, sub, i + 1);
        }
        if exists i :: OccursAt(s, sub, i) {
          var i: nat :| OccursAt(s, sub, i);
          assert i != 0;
          assert s[1..][i - 1..i - 1 + |sub|] == s[i..i + |sub|];
          assert OccursAt(s[1..], sub, i - 1);
        }
      }
    }
  }

  /** `String.prototype.split(sep)`: the pieces between occurrences of `sep`, always at least one. */
  function Split(s: string, sep: char): (parts: seq<string>)
    ensures |parts| >= 1
    ensures forall i :: 0 <= i < |parts| ==> sep !in parts[i]
  {
    if s == [] then [""]
    else
      var rest := Split(s[1..], sep);
      if s[0] == sep then [""] + rest
      else [[s[0]] + rest[0]] + rest[1..]
  }

  /** `Array.prototype.join(sep)` on a non-empty list of strings. */
  function Join(parts: seq<string>, sep: char): string
    requires |parts| >= 1
  {
    if |parts| == 1 then parts[0] else parts[0] + [sep] + Join(parts[1..], sep)
  }

  /** Joining the pieces of a split gives back the original string. */
  lemma {:induction false} JoinSplit(s: string, sep: char)
    ensures Join(Split(s, sep), sep) == s
  {
    if s != [] {
      var rest := Split(s[1..], sep);
      JoinSplit(s[1..], sep);
      if s[0] != sep {
        JoinExtendHead(rest, [s[0]], sep);
        assert [s[0]] + s[1..] == s;
      }
    }
  }

  lemma JoinExtendHead(parts: seq<string>, x: string, sep: char)
    requires |parts| >= 1
    ensures Join([x + parts[0]] + parts[1..], sep) == x + Join(parts, sep)
  {
    var p := [x + parts[0]] + parts[1..];
    if |parts| > 1 {
      assert p[1..] == parts[1..];
    }
  }

  /** Splitting a join of pieces free of `sep` gives back the pieces. */
  lemma {:induction false} SplitJoin(parts: seq<string>, sep: char)
    requires |parts| >= 1
    requires forall i :: 0 <= i < |parts| ==> sep !in parts[i]
    ensures Split(Join(parts, sep), sep) == parts
  {
    if |parts| == 1 {
      SplitFreePrefix(parts[0], "", sep);
      assert parts[0] + "" == parts[0];
    } else {
      var tail := Join(parts[1..], sep);
      SplitJoin(parts[1..], sep);
      SplitFreePrefix(parts[0], [sep] + tail, sep);
      assert ([sep] + tail)[1..] == tail;
      assert Split([sep] + tail, sep) == [""] + parts[1..];
      assert parts[0] + [sep] + tail == parts[0] + ([sep] + tail);
      assert parts[0] + "" == parts[0];
      assert [parts[0]] + parts[1..] == parts;
    }
  }

  /** A prefix without `sep` only lengthens the first piece. */
  lemma {:induction false} SplitFreePrefix(p: string, t: string, sep: char)
    requires sep !in p
    ensures Split(p + t, sep) == [p + Split(t, sep)[0]] + Split(t, sep)[1..]
  {
    if p == [] {
      assert p + t == t;
      assert p + Split(t, sep)[0] == Split(t, sep)[0];
      assert [Split(t, sep)[0]] + Split(t, sep)[1..] == Split(t, sep);
    } else {
      SplitFreePrefix(p[1..], t, sep);
      assert (p + t)[1..] == p[1..] + t;
      assert [p[0]] + (p[1..] + Split(t, sep)[0]) == p + Split(t, sep)[0];
    }
  }
}

=== FILE: wrappers.dfy ===
/** Optional values: a JavaScript `undefined`/`null` or a missing parameter. */
module Wrappers {

  datatype Option<+T> = None | Some(value: T) {

    /** The value held, or `default` when there is none (JavaScript's `??`). */
    function GetOr(default: T): T {
      match this
      case Some(v) => v
      case None => default
    }
  }
}
